=== FILE: README.md ===
# Subscription entitlement core of a personal-finance web app, in Dafny

This project models the parts of the application that decide and maintain a
user's access to the paid area:

- **the entitlement gate** in front of the protected routes (`ProtectedRoute`):
  a first-match-wins decision over the session, the entitlement query and
  the clock, yielding `loading`, `no_session`, `paywall` or `ok` (here
  `Granted`), and the navigation each state renders;
- **the webhook reconciler** (`stripe-webhook`): a transition on the
  `entitlements` table that mirrors a provider subscription's status, period
  end and identifiers onto the rows that carry its customer id;
- **the checkout and portal handlers**: request → (response, table, provider
  calls) functions. Checkout looks up or lazily creates the provider customer
  and persists it once. Portal only reads and needs an existing customer;
- **the paywall page**: the trial countdown (`trialInfo`), the
  busy/error states of the subscribe button and the "manage subscription" button;
- **the transactions page**: the order-preserving filter by type and
  case-insensitive search, and the ordered validation and sign convention
  of a new transaction.

The model is written with datatypes and total functions. The `entitlements` table
is a `map` from user id to row. Timestamps are integer milliseconds. The external
services are fields of a `Services` record, as functions whose behaviour the model
leaves open. There are six of them: JSON parsing of a request body, token
verification (`auth.getUser`), signature verification
(`webhooks.constructEvent`), customer creation, checkout-session creation and
portal-session creation. Store failures are the `StoreFaults` input: whether the
select or the update query fails, and with what message. Each handler returns a
`Reply` holding the response, the table afterwards, and the provider calls it made,
in order. That is how "no customer created" and "exactly one customer, before the
session" are stated.

JavaScript semantics are written out where they matter:

- truthiness (`!x` also rejects `""`) is `Truthy`;
- `??` replaces only an absent value, so an empty `SITE_URL` or `returnUrl` is kept;
- `authHeader.replace("Bearer ", "")` removes the first occurrence anywhere in the
  header, not only a prefix (`Text.BearerTokenNotAnchored`);
- `includes` and `toLowerCase` are exact on Latin-1.

Modules: `Common` (shared records, configuration, method guard), `Text`,
`Gate`, `Webhook`, `Bridge` (the authentication prelude of both bridge
handlers), `Checkout`, `Portal`, `Paywall`, `Transactions`, and `Scenarios`
(end-to-end properties across components).

Behaviour of the code worth knowing:

- The reconciler's write is an *update* filtered by `stripe_customer_id`; it
  never inserts. An event for a customer no row carries changes nothing.
- The checkout handler persists a new customer id with an update filtered by
  `user_id`. A user without an entitlement row gets a customer created on every
  checkout, because the write has nothing to update. The reuse property
  (`Checkout.SecondCheckoutReusesCustomer`) therefore requires the row to exist.
  If the update fails after the customer was created, the request fails with 400
  and the created customer is not recorded.
- The portal's missing-customer error is "Cliente Stripe não encontrado".
  A body `returnUrl` is honoured by the portal but ignored by checkout.
- The trial countdown treats `end == now` as ended, while the gate still grants
  access at that instant (`Paywall.EndedDisagreesWithGateOnlyAtBoundary`).

## Model

| member | source | states |
|---|---|---|
| Common.AdminConfigError | supabase/functions/_shared/supabaseAdmin.ts:3-8 | the store client can be built exactly when both the store URL and the service-role key are non-empty |
| Text.IndexFrom | supabase/functions/create-checkout-session/index.ts:25 | the result is the first position at or after the start where the pattern occurs, or none if it occurs nowhere after it |
| Text.IndexOf | supabase/functions/create-checkout-session/index.ts:25 | the result is the first occurrence of the pattern, with no earlier one, or none if it never occurs |
| Text.ReplaceFirst | supabase/functions/create-checkout-session/index.ts:25 | only the first occurrence is replaced, and a string without the pattern is returned unchanged |
| Text.BearerTokenOfBearerHeader | supabase/functions/create-checkout-session/index.ts:25 | the header `"Bearer " + t` yields exactly the token `t` |
| Text.BearerTokenNotAnchored | supabase/functions/create-checkout-session/index.ts:25 | the replacement is not anchored: "xBearer y" yields "xy" |
| Text.BearerTokenCutsFirstOccurrence | supabase/functions/create-checkout-session/index.ts:25 | for any header `p + "Bearer " + t` with no earlier occurrence of "Bearer ", the token is `p + t`: what precedes the first occurrence is kept |
| Text.ContainsIffOccurs | src/pages/TransactionsPage.tsx:86 | `includes` holds exactly when some suffix of the text starts with the needle |
| Text.EmptyContainsOnlyEmpty | src/pages/TransactionsPage.tsx:86 | the empty description contains only the empty search |
| Text.LowerChar | src/pages/TransactionsPage.tsx:86 | A–Z map to a–z and À–Þ (except ×) to à–þ, each 32 code points up; × and every character outside both ranges are unchanged |
| Text.ToLower | src/pages/TransactionsPage.tsx:86 | lower-casing keeps the length and lower-cases each character in place |
| Text.ToLowerIdempotent | src/pages/TransactionsPage.tsx:86 | lower-casing twice equals lower-casing once |
| Gate.Decide | src/components/ProtectedRoute.tsx:34-45 | auth loading gives loading; otherwise no user gives no_session; otherwise entitlement loading gives loading; otherwise ok holds exactly when the status is active/trialing or the trial end is present and now ≤ end, and paywall holds exactly when neither is true |
| Gate.NoSessionIgnoresEntitlement | src/components/ProtectedRoute.tsx:36 | with auth settled and no user, the result is no_session for any entitlement, loading flag and time |
| Gate.SubscribedIgnoresTrial | src/components/ProtectedRoute.tsx:12-43 | an active or trialing status gives ok whatever the trial end, absent or expired |
| Gate.TrialBoundaryInclusive | src/components/ProtectedRoute.tsx:39-40 | without a subscription, access holds at the exact trial-end millisecond and the paywall applies one millisecond later |
| Gate.MissingRowIsPaywall | src/components/ProtectedRoute.tsx:39-44 | a user with no entitlement row gets the paywall, not an error |
| Gate.GrantedEarlierIfGrantedLater | src/components/ProtectedRoute.tsx:39-43 | access granted at some instant is granted at every earlier instant too |
| Gate.RenderGate | src/components/ProtectedRoute.tsx:47-57 | loading renders nothing, no_session navigates (replace) to /login carrying the location, paywall navigates (replace) to /app/paywall, and ok renders the outlet, each an if-and-only-if |
| Gate.RenderDeterminesState | src/components/ProtectedRoute.tsx:47-57 | the rendered element determines the gate state: reading the state back off the render recovers it |
| Gate.LoginRedirectKeepsLocation | src/components/ProtectedRoute.tsx:49-51 | the login redirect preserves the originally requested location |
| Webhook.ApplySubscription | supabase/functions/stripe-webhook/index.ts:35-50 | no row is inserted or removed; rows with a different customer id are unchanged; each matching row gets the status verbatim, the period end (seconds·1000, null when absent or 0), the customer id and the subscription id, and keeps its trial end |
| Webhook.Verified | supabase/functions/stripe-webhook/index.ts:6-33 | the checks fail in order (missing secret, missing STRIPE_SECRET_KEY, missing signature header), each with its message; with all three present, a rejected signature yields the verifier's error, a missing store configuration then yields its error, and a configured store yields exactly the event the verifier built |
| Webhook.Dispatch | supabase/functions/stripe-webhook/index.ts:53-66 | events other than customer.subscription.created/updated/deleted (checkout.session.completed included) leave the table as is; a subscription event carrying a subscription, with no update error, yields exactly the table with that subscription applied; an update error fails the whole event with the store's own message, and a subscription event without a subscription object fails too |
| Webhook.HandleWebhook | supabase/functions/stripe-webhook/index.ts:16-78 | the handler makes no provider call and never adds or removes rows; OPTIONS/405 leave the table alone; a failed verification answers 400 with its message and writes nothing; every non-200 answer leaves the table unchanged; `{received: true}` is answered exactly when verification and dispatch succeed, with the dispatched table; a verified event whose dispatch fails is answered 400 with the dispatch's message and writes nothing |
| Webhook.ApplyIdempotent | supabase/functions/stripe-webhook/index.ts:41-49 | applying the same subscription twice equals applying it once |
| Webhook.LastWriterWins | supabase/functions/stripe-webhook/index.ts:41-49 | of two subscriptions for the same customer, the table ends as the later one alone leaves it: no ordering guard |
| Webhook.DifferentCustomersCommute | supabase/functions/stripe-webhook/index.ts:41-49 | subscriptions of different customers can be applied in either order with the same result |
| Webhook.UnknownCustomerChangesNothing | supabase/functions/stripe-webhook/index.ts:41-49 | a customer id that no row carries leaves the table unchanged (the update inserts nothing) |
| Webhook.ReplayIsIdempotent | supabase/functions/stripe-webhook/index.ts:16-78 | handling the same request a second time leaves the table as the first delivery left it |
| Bridge.Caller | supabase/functions/create-checkout-session/index.ts:18-26 | with no (or an empty) Authorization header nobody is resolved; otherwise the user is what `getUser` returns for the header with "Bearer " removed |
| Bridge.BearerHeaderHandsOverToken | supabase/functions/create-checkout-session/index.ts:25 | for the header `"Bearer " + t` the token handed to `getUser` is exactly `t` |
| Bridge.BearerTokenDecidesAdmission | supabase/functions/create-checkout-session/index.ts:18-26 | with the store configured, the header `"Bearer " + t` is admitted as exactly the user `getUser(t)` returns, and refused with 401 when it returns nobody |
| Bridge.Authenticate | supabase/functions/create-checkout-session/index.ts:17-26 | a missing header is 401 before anything else; with a header, a missing store configuration is 400; with the store configured, a token `getUser` resolves to nobody is 401; the caller is admitted exactly when `getUser` resolves a user and the store is configured, and then as that user |
| Checkout.SaveCustomer | supabase/functions/create-checkout-session/index.ts:49-53 | the write sets only `stripe_customer_id`, only on that user's row, and inserts nothing when the row is missing |
| Checkout.CheckoutFor | supabase/functions/create-checkout-session/index.ts:28-76 | errors come in order (STRIPE_SECRET_KEY, null body, "STRIPE_PRICE_ID ausente", select error), each a 400 with its message, no call and no write; a stored id leads straight to the one session call for that customer, with no write; without one, a failed creation is 400 with the provider's message after that one call; a created customer whose update fails is 400 with nothing written; a created and saved customer is written onto this user's row and the session is then requested for it, so the id stays written even when the session fails; the answer is 200 carrying the session's URL exactly when the session call succeeds, and otherwise 400 with the provider's message; the session params are subscription mode, one unit of the price, promotion codes allowed, tagged with the user id, with the success/cancel URLs from the site base |
| Checkout.HandleCheckout | supabase/functions/create-checkout-session/index.ts:9-77 | OPTIONS is "ok" and other non-POST methods 405, with nothing done; every refusal of the prelude (no header 401, missing store 400, rejected token 401) is answered as is, with no call and no write; an admitted POST is answered by the caller-specific step, so a 200 carries the session's URL; answers are 200/400/401/405; only the caller's row can change, and only an empty customer id gets filled; a 200 answer came from a session with the success/cancel URLs built from the site base |
| Checkout.ReturnUrlIgnored | supabase/functions/create-checkout-session/index.ts:30 | the body's `returnUrl` has no effect: any two non-null bodies give the same reply |
| Checkout.SecondCheckoutReusesCustomer | supabase/functions/create-checkout-session/index.ts:42-54 | after a successful checkout by a user with a row, a second identical checkout creates no customer and writes nothing |
| Checkout.FirstCheckoutCreatesOneCustomer | supabase/functions/create-checkout-session/index.ts:42-57 | a successful first checkout makes exactly two calls, creating one customer for this user and then the session, and writes the new id onto that user's row only |
| Portal.PortalFor | supabase/functions/create-portal-session/index.ts:28-53 | the table is never written; a select error, then a missing row or customer id ("Cliente Stripe não encontrado"), then a missing STRIPE_SECRET_KEY are each 400 before any provider call; a caller with a stored customer and a non-null body gets exactly one portal call, for that customer id and the body's `returnUrl` or else site+"/app"; the answer is 200 with its URL exactly when that call succeeds, and otherwise 400 with the provider's message |
| Portal.HandlePortal | supabase/functions/create-portal-session/index.ts:9-54 | the table is never written; OPTIONS is "ok" and other non-POST methods 405; every refusal of the prelude (no header 401, missing store 400, rejected token 401) is answered as is, with no call; an admitted POST is answered by the caller-specific step; any provider call is the single portal session for the caller's stored customer id |
| Portal.NoCustomerNoPortal | supabase/functions/create-portal-session/index.ts:33-34 | an authenticated caller without a row or customer id gets exactly 400 "Cliente Stripe não encontrado", with no call and no write |
| Paywall.CeilDiv | src/pages/PaywallPage.tsx:44 | the integer ceiling q of a/d satisfies (q−1)·d < a ≤ q·d |
| Paywall.TrialInfoOf | src/pages/PaywallPage.tsx:37-46 | there is no countdown exactly when there is no trial end; ended ⇔ end − now ≤ 0; hoursLeft ≥ 0, and it is 0 when ended; otherwise hoursLeft ≥ 1 and (hoursLeft−1)·3600000 < end − now ≤ hoursLeft·3600000 |
| Paywall.EndedDisagreesWithGateOnlyAtBoundary | src/pages/PaywallPage.tsx:40-44 | without a subscription, at end == now the page says ended while the gate grants access; at every other instant "ended" is exactly "no access" |
| Paywall.StartCheckout | src/pages/PaywallPage.tsx:48-64 | the pending state is busy with any earlier error cleared; busy is false after every outcome; a redirect happens exactly when the reply has a non-empty URL, with no error; a reply without a URL sets "Checkout sem URL"; a failed invoke sets its message |
| Transactions.Filter | src/pages/TransactionsPage.tsx:82-89 | the list never grows, holds only fetched rows that pass the type and search filters, and holds every fetched row that passes them |
| Transactions.FilterIsSubsequence | src/pages/TransactionsPage.tsx:82-88 | the filtered list is an order-preserving subsequence of the fetched list |
| Transactions.FilterIdempotent | src/pages/TransactionsPage.tsx:82-89 | filtering the filtered list with the same settings returns it unchanged |
| Transactions.NoFilterKeepsAll | src/pages/TransactionsPage.tsx:84-86 | "all" with an empty search shows the list whole |
| Transactions.TypeFilterSelects | src/pages/TransactionsPage.tsx:84-85 | "receita" shows only income rows and "despesa" only non-income rows, and each shows every such row the search admits |
| Transactions.UnknownFilterHidesAll | src/pages/TransactionsPage.tsx:84-85 | any filter value other than all/receita/despesa hides every row |
| Transactions.SearchDropsMissingDescription | src/pages/TransactionsPage.tsx:86 | a non-empty search drops every row whose description is null |
| Transactions.SearchIgnoresCase | src/pages/TransactionsPage.tsx:86 | the search matches the same rows as its lower-cased form |
| Transactions.CreateTx | src/pages/TransactionsPage.tsx:51-69 | validation runs in order: no session, invalid amount, no type, no date, and the first failure is the error; the insert succeeds exactly when all pass and the store does not fail; the stored amount is −cents (< 0) for expense and +cents (> 0) otherwise; type and date are verbatim; empty category/description become null |
| Transactions.SavedRowFiltersByItsType | src/pages/TransactionsPage.tsx:58-59 | a saved income shows under "receita" with a positive amount and a saved expense under "despesa" with a negative amount |
| Transactions.SavedDescriptionIsFound | src/pages/TransactionsPage.tsx:65-66 | a saved description reads back through the list's `?? ""` as exactly what was typed, so a search equal to it up to case finds the row, and a row saved without a description is found by no non-empty search |
| Scenarios.TrialTwoHoursAhead | src/components/ProtectedRoute.tsx:39-43 | two hours before the trial end, with no status, the gate grants access and the countdown shows 2 hours, not ended |
| Scenarios.HourAfterTrialEnded | src/components/ProtectedRoute.tsx:39-44 | an hour after the trial end, unsubscribed, the gate shows the paywall and the countdown says ended with 0 hours |
| Scenarios.ActivationEventOpensGate | supabase/functions/stripe-webhook/index.ts:41-71 | an `updated` event with status active for a customer on the user's row is acknowledged, sets the row's status to active, and the gate then grants access |
| Scenarios.CancellationEventClosesGate | supabase/functions/stripe-webhook/index.ts:41-58 | a `deleted` event with status canceled for the user's customer closes the gate once the trial is absent or past |
| Scenarios.LaterDeliveryWins | supabase/functions/stripe-webhook/index.ts:41-49 | two successful deliveries for the same customer leave the table as the second alone would |
| Scenarios.RejectedSignatureWritesNothing | supabase/functions/stripe-webhook/index.ts:31 | a signature the verifier rejects answers 400 with its message and writes nothing |
| Scenarios.CheckoutAnswerRedirects | src/pages/PaywallPage.tsx:52-58 | a 200 checkout answer with a URL sends the browser there and leaves the button idle with no error |
| Scenarios.CheckoutRefusalShowsError | src/pages/PaywallPage.tsx:55-63 | any non-200 checkout answer leaves the button idle, with the library's error and no redirect |
| Scenarios.HandlersShareMethodGuard | supabase/functions/stripe-webhook/index.ts:17-22 | for any method other than POST the webhook, checkout and portal handlers answer identically (OPTIONS 200 "ok", anything else 405), with no write and no provider call |
| Scenarios.PortalButtonFollowsHandler | src/pages/PaywallPage.tsx:115-118 | after a portal request the "manage subscription" button leaves the page only for the URL of a portal session the provider opened, never empty, and stays on the page after any non-200 answer |

## Left out

- Stripe API calls (`customers.create`, `checkout.sessions.create`, `billingPortal.sessions.create`) and the signature HMAC inside `constructEvent` are foreign library calls. They are functions in `Services` that may return success or an error.
- The identity provider, row-level security and network errors are out of scope. Token verification is `Services.getUser`, and store failures are the `StoreFaults` input.
- JSON parsing of request bodies is `Services.parseJson`. A `returnUrl` that is a non-string JSON value is not modelled.
- The exact text of the engine's `TypeError` (destructuring a `null` body, or a subscription without `customer`) is not fixed by the source. The model uses a placeholder message.
- Date parsing and formatting are left out: ISO strings, `new Date`, `toLocaleString` and invalid dates (NaN). Timestamps are integer milliseconds, and an empty `trial_ends_at` string counts as absent.
- Paywall.TrialInfoOf: uses the exact integer ceiling of ms/3600000 in place of `Math.ceil` on a floating-point quotient. The two agree for realistic timestamps.
- Transactions.CreateTx: takes the amount as integer cents (or "not finite") instead of parsing the text with `Number` and `Math.round(x*100)`. A positive amount below half a cent, which the source accepts and stores as 0, is therefore not modelled.
- `toLowerCase` beyond Latin-1 is not modelled. Characters outside A–Z and À–Þ are left unchanged.
- The `disabled={busy}` guard on both paywall buttons is not modelled. Each click is modelled on its own, as if the button were enabled.
- The client library's `functions.invoke` is modelled only as "a 2xx answer becomes data, anything else an error with the library's own text". Its transport, retries and the exact error text are left out.
- Gate.Decide: `now` is the instant the memoised decision was last recomputed, on a change of the loading flags, the user or the row, not the current time. Re-rendering as the clock advances is not modelled. The same holds for Paywall.TrialInfoOf, which is memoised on the trial end alone.
- HTTP method case normalisation, CORS and `Content-Type` headers are not modelled.
- Query caching and refetching by the client library, and the exact meaning of its `isLoading`, are left out. The gate takes the two loading flags as inputs. A failed entitlement query reaches the gate as a missing row.
- Concurrent or out-of-order webhook delivery is not modelled. Only sequential application of events is modelled, and `Webhook.DifferentCustomersCommute` / `Webhook.LastWriterWins` say what order does and does not change.
- Presentation pages are left out because they are static demo data or layout: landing, dashboard, BI, layout, signup, goals (a float percentage), simulator (floating-point compound interest) and the AI assistant mock (timers and randomness). Styling of the transaction list is left out too.
- Routing (`src/App.tsx`) is left out. Its route table never mounts `ProtectedRoute` and has no `/app/paywall` route, so the gate is modelled as a component on its own.
- Configuration plumbing on the client (`src/lib/env.ts`) is left out. On the server, a missing variable is an error input (`Env`).

=== FILE: bridge.dfy ===
/** The authentication prelude shared by the checkout and portal handlers: the
    `Authorization` header, the store client's configuration, then the
    identity provider's verdict on the bearer token. */
module Bridge {
  import opened Common
  import opened Text

  /** The user the identity provider resolves the request's token to; no
      header (or an empty one) resolves to nobody. */
  function Caller(req: Request, svc: Services): (u: Option<User>)
    ensures !Truthy(req.authorization) ==> u.None?
    ensures Truthy(req.authorization) ==> u == svc.getUser(BearerToken(req.authorization.value))
  {
    if Truthy(req.authorization) then svc.getUser(BearerToken(req.authorization.value)) else None
  }

  /** The well-formed header `"Bearer " + t` hands exactly `t` to `getUser`. */
  lemma BearerHeaderHandsOverToken(req: Request, svc: Services, t: string)
    requires req.authorization == Some("Bearer " + t)
    ensures Caller(req, svc) == svc.getUser(t)
  {
    BearerTokenOfBearerHeader(t);
  }

  datatype Admission = Admitted(user: User) | Refused(response: Response)

  /** The prelude: a missing header is 401 before anything else, a missing
      store configuration is 400, a token the provider rejects is 401. */
  function Authenticate(req: Request, env: Env, svc: Services): (a: Admission)
    ensures !Truthy(req.authorization) ==> a == Refused(Unauthorized())
    ensures a.Admitted? <==> Caller(req, svc).Some? && AdminConfigError(env).None?
    ensures a.Admitted? ==> Caller(req, svc) == Some(a.user)
    ensures Truthy(req.authorization) && AdminConfigError(env).Some? ==>
      a == Refused(Failure(AdminConfigError(env).value))
    ensures Truthy(req.authorization) && AdminConfigError(env).None? && Caller(req, svc).None? ==>
      a == Refused(Unauthorized())
    ensures a.Refused? && a.response.status != 400 ==> a.response == Unauthorized()
  {
    if !Truthy(req.authorization) then Refused(Unauthorized())
    else if AdminConfigError(env).Some? then Refused(Failure(AdminConfigError(env).value))
    else
      var u := svc.getUser(BearerToken(req.authorization.value));
      if u.None? then Refused(Unauthorized()) else Admitted(u.value)
  }

  /** With the store configured, a request carrying `"Bearer " + t` is
      admitted exactly as the user the identity provider resolves `t` to, and
      refused with 401 when it resolves `t` to nobody. */
  lemma BearerTokenDecidesAdmission(req: Request, env: Env, svc: Services, t: string)
    requires req.authorization == Some("Bearer " + t)
    requires AdminConfigError(env).None?
    ensures svc.getUser(t).Some? ==> Authenticate(req, env, svc) == Admitted(svc.getUser(t).value)
    ensures svc.getUser(t).None? ==> Authenticate(req, env, svc) == Refused(Unauthorized())
  {
    BearerTokenOfBearerHeader(t);
  }
}

=== FILE: checkout.dfy ===
/** The checkout handler: authenticates the caller, looks up or lazily creates
    the provider customer (persisting its id once), and opens a
    subscription-mode checkout session whose return addresses point back into
    the application. */
module Checkout {
  import opened Common
  import opened Bridge

  const MissingPrice: string := "STRIPE_PRICE_ID ausente"

  function SuccessUrl(env: Env): string {
    SiteUrl(env) + "/app?checkout=success"
  }

  function CancelUrl(env: Env): string {
    SiteUrl(env) + "/app/paywall?checkout=cancel"
  }

  /** `ent?.stripe_customer_id ?? null` for the user's row. */
  function StoredCustomer(rows: Rows, id: UserId): (c: Option<string>)
    ensures id !in rows ==> c.None?
    ensures id in rows ==> c == rows[id].stripeCustomerId
  {
    if id in rows then rows[id].stripeCustomerId else None
  }

  /** `update({stripe_customer_id}).eq("user_id", id)`: only that user's row,
      only that field; without a row nothing is written (no insert). */
  function SaveCustomer(rows: Rows, id: UserId, customerId: string): (r: Rows)
    ensures r.Keys == rows.Keys
    ensures id in rows ==> r[id] == rows[id].(stripeCustomerId := Some(customerId))
    ensures forall u :: u in rows && u != id ==> r[u] == rows[u]
  {
    if id in rows then rows[id := rows[id].(stripeCustomerId := Some(customerId))] else rows
  }

  /** The session request: one unit of the configured price, promotion codes
      allowed, tagged with the user's id. */
  function SessionParams(env: Env, user: User, customerId: string): (p: CheckoutParams)
    requires env.priceId.Some?
    ensures p.customer == customerId && p.price == env.priceId.value && p.quantity == 1
    ensures p.successUrl == SuccessUrl(env) && p.cancelUrl == CancelUrl(env)
    ensures p.mode == "subscription" && p.supabaseUserId == user.id && p.allowPromotionCodes
  {
    CheckoutParams("subscription", customerId, env.priceId.value, 1,
                   SuccessUrl(env), CancelUrl(env), true, user.id)
  }

  /** The last step: create the session, answer with its URL. */
  function OpenSession(params: CheckoutParams, svc: Services, rows: Rows, calls: seq<ProviderCall>): (r: Reply)
    ensures r.rows == rows && r.calls == calls + [CreateCheckoutSession(params)]
    ensures r.response.status == 200 <==> svc.createCheckoutSession(params).Ok?
    ensures r.response.status == 200 ==> r.response.body == UrlJson(svc.createCheckoutSession(params).value)
  {
    match svc.createCheckoutSession(params)
    case Err(m) => Reply(Failure(m), rows, calls + [CreateCheckoutSession(params)])
    case Ok(url) => Reply(Response(200, UrlJson(url)), rows, calls + [CreateCheckoutSession(params)])
  }

  /** No customer creation among the calls. */
  predicate CreatesNoCustomer(calls: seq<ProviderCall>) {
    forall i :: 0 <= i < |calls| ==> !calls[i].CreateCustomer?
  }

  /** The handler's work once the caller is known. */
  function CheckoutFor(user: User, req: Request, env: Env, svc: Services, rows: Rows, faults: StoreFaults): (r: Reply)
    ensures r.rows.Keys == rows.Keys
    ensures forall u :: u in rows && u != user.id ==> r.rows[u] == rows[u]
    ensures user.id in rows && r.rows[user.id] != rows[user.id] ==>
      !Truthy(rows[user.id].stripeCustomerId) &&
      r.rows[user.id] == rows[user.id].(stripeCustomerId := r.rows[user.id].stripeCustomerId)
    ensures |r.calls| <= 2
    ensures forall i :: 0 <= i < |r.calls| && r.calls[i].CreateCustomer? ==>
      i == 0 && r.calls[i] == CreateCustomer(CustomerParams(user.email, user.id))
    ensures forall i :: 0 <= i < |r.calls| && r.calls[i].CreateCheckoutSession? ==> i == |r.calls| - 1
    ensures !Truthy(env.priceId) ==> r.calls == [] && r.rows == rows && r.response.status == 400
    ensures Truthy(StoredCustomer(rows, user.id)) ==> CreatesNoCustomer(r.calls) && r.rows == rows
    ensures StripeConfigError(env).None? && svc.parseJson(req.rawBody) != JsonNull && Truthy(env.priceId) &&
            faults.selectError.None? && !Truthy(StoredCustomer(rows, user.id)) ==>
      r.calls != [] && r.calls[0] == CreateCustomer(CustomerParams(user.email, user.id))
    ensures r.response.status == 200 ==>
      && |r.calls| > 0 && r.calls[|r.calls| - 1].CreateCheckoutSession?
      && r.calls[|r.calls| - 1].checkoutParams == SessionParams(env, user, r.calls[|r.calls| - 1].checkoutParams.customer)
      && (user.id in rows ==> r.rows[user.id].stripeCustomerId == Some(r.calls[|r.calls| - 1].checkoutParams.customer))
    ensures r.response.status == 200 || r.response.status == 400
    ensures StripeConfigError(env).Some? ==> r == Reply(Failure(StripeConfigError(env).value), rows, [])
    ensures StripeConfigError(env).None? && svc.parseJson(req.rawBody) == JsonNull ==>
      r == Reply(Failure(NullBodyError), rows, [])
    ensures StripeConfigError(env).None? && svc.parseJson(req.rawBody) != JsonNull && !Truthy(env.priceId) ==>
      r == Reply(Failure(MissingPrice), rows, [])
    ensures StripeConfigError(env).None? && svc.parseJson(req.rawBody) != JsonNull && Truthy(env.priceId) ==>
      && (faults.selectError.Some? ==> r == Reply(Failure(faults.selectError.value), rows, []))
      && (faults.selectError.None? && Truthy(StoredCustomer(rows, user.id)) ==>
            var params := SessionParams(env, user, StoredCustomer(rows, user.id).value);
            && r.rows == rows && r.calls == [CreateCheckoutSession(params)]
            && (r.response.status == 200 <==> svc.createCheckoutSession(params).Ok?)
            && (r.response.status == 200 ==> r.response.body == UrlJson(svc.createCheckoutSession(params).value))
            && (r.response.status != 200 ==> r.response == Failure(svc.createCheckoutSession(params).message)))
      && (faults.selectError.None? && !Truthy(StoredCustomer(rows, user.id)) ==>
            var cp := CustomerParams(user.email, user.id);
            var created := svc.createCustomer(cp);
            && (created.Err? ==> r == Reply(Failure(created.message), rows, [CreateCustomer(cp)]))
            && (created.Ok? && faults.updateError.Some? ==>
                  r == Reply(Failure(faults.updateError.value), rows, [CreateCustomer(cp)]))
            && (created.Ok? && faults.updateError.None? ==>
                  var params := SessionParams(env, user, created.value);
                  && r.rows == SaveCustomer(rows, user.id, created.value)
                  && r.calls == [CreateCustomer(cp), CreateCheckoutSession(params)]
                  && (r.response.status == 200 <==> svc.createCheckoutSession(params).Ok?)
                  && (r.response.status == 200 ==>
                        r.response.body == UrlJson(svc.createCheckoutSession(params).value))
                  && (r.response.status != 200 ==>
                        r.response == Failure(svc.createCheckoutSession(params).message))))
  {
    if StripeConfigError(env).Some? then Reply(Failure(StripeConfigError(env).value), rows, [])
    else if svc.parseJson(req.rawBody) == JsonNull then Reply(Failure(NullBodyError), rows, [])
    else if !Truthy(env.priceId) then Reply(Failure(MissingPrice), rows, [])
    else if faults.selectError.Some? then Reply(Failure(faults.selectError.value), rows, [])
    else
      var stored := StoredCustomer(rows, user.id);
      if Truthy(stored) then OpenSession(SessionParams(env, user, stored.value), svc, rows, [])
      else
        var cp := CustomerParams(user.email, user.id);
        match svc.createCustomer(cp)
        case Err(m) => Reply(Failure(m), rows, [CreateCustomer(cp)])
        case Ok(cid) =>
          if faults.updateError.Some? then Reply(Failure(faults.updateError.value), rows, [CreateCustomer(cp)])
          else OpenSession(SessionParams(env, user, cid), svc, SaveCustomer(rows, user.id, cid), [CreateCustomer(cp)])
  }

  /** The checkout handler. */
  function HandleCheckout(req: Request, env: Env, svc: Services, rows: Rows, faults: StoreFaults): (r: Reply)
    ensures req.httpMethod == "OPTIONS" ==> r == Reply(Response(200, PlainText("ok")), rows, [])
    ensures req.httpMethod != "OPTIONS" && req.httpMethod != "POST" ==>
      r == Reply(Response(405, PlainText(MethodNotAllowed)), rows, [])
    ensures req.httpMethod == "POST" && !Truthy(req.authorization) ==> r == Reply(Unauthorized(), rows, [])
    ensures r.response.status in {200, 400, 401, 405}
    ensures r.response.status == 401 ==> r.rows == rows && r.calls == []
    ensures req.httpMethod == "POST" && Authenticate(req, env, svc).Refused? ==>
      r == Reply(Authenticate(req, env, svc).response, rows, [])
    ensures (req.httpMethod == "POST" && Truthy(req.authorization) && AdminConfigError(env).None? &&
             Caller(req, svc).None?) ==> r == Reply(Unauthorized(), rows, [])
    ensures req.httpMethod == "POST" && Authenticate(req, env, svc).Admitted? ==>
      r == CheckoutFor(Authenticate(req, env, svc).user, req, env, svc, rows, faults)
    ensures r.rows.Keys == rows.Keys
    ensures forall u :: u in rows && r.rows[u] != rows[u] ==>
      req.httpMethod == "POST" && Caller(req, svc).Some? && u == Caller(req, svc).value.id &&
      !Truthy(rows[u].stripeCustomerId) &&
      r.rows[u] == rows[u].(stripeCustomerId := r.rows[u].stripeCustomerId)
    ensures r.calls != [] ==> req.httpMethod == "POST" && Authenticate(req, env, svc).Admitted?
    ensures !Truthy(env.priceId) ==> r.calls == [] && r.rows == rows
    ensures r.response.status == 200 && req.httpMethod == "POST" ==>
      && Authenticate(req, env, svc).Admitted?
      && |r.calls| > 0
      && r.calls[|r.calls| - 1].CreateCheckoutSession?
      && r.calls[|r.calls| - 1].checkoutParams.successUrl == SiteUrl(env) + "/app?checkout=success"
      && r.calls[|r.calls| - 1].checkoutParams.cancelUrl == SiteUrl(env) + "/app/paywall?checkout=cancel"
  {
    match MethodGuard(req.httpMethod)
    case Some(resp) => Reply(resp, rows, [])
    case None =>
      match Authenticate(req, env, svc)
      case Refused(resp) => Reply(resp, rows, [])
      case Admitted(user) => CheckoutFor(user, req, env, svc, rows, faults)
  }

  /** The body's `returnUrl` is read but never used: any two bodies that parse
      to something other than `null` give the same reply. */
  lemma ReturnUrlIgnored(req: Request, env: Env, svc: Services, rows: Rows, faults: StoreFaults, otherBody: string)
    requires svc.parseJson(req.rawBody) != JsonNull && svc.parseJson(otherBody) != JsonNull
    ensures HandleCheckout(req, env, svc, rows, faults) == HandleCheckout(req.(rawBody := otherBody), env, svc, rows, faults)
  {
  }

  /** A customer is created at most once per user: after a successful
      checkout, a second one with the same request reuses the persisted id,
      creating no customer and writing nothing. This needs the user's row to
      exist (otherwise the first write had nothing to update) and the provider
      to hand out non-empty ids. */
  lemma SecondCheckoutReusesCustomer(req: Request, env: Env, svc: Services, rows: Rows, faults: StoreFaults)
    requires req.httpMethod == "POST"
    requires HandleCheckout(req, env, svc, rows, faults).response.status == 200
    requires Caller(req, svc).Some? && Caller(req, svc).value.id in rows
    requires forall p :: svc.createCustomer(p).Ok? ==> svc.createCustomer(p).value != ""
    ensures
      var first := HandleCheckout(req, env, svc, rows, faults);
      var second := HandleCheckout(req, env, svc, first.rows, faults);
      second.rows == first.rows && CreatesNoCustomer(second.calls)
  {
    var first := HandleCheckout(req, env, svc, rows, faults);
    var user := Caller(req, svc).value;
    assert Authenticate(req, env, svc) == Admitted(user);
    var p := first.calls[|first.calls| - 1].checkoutParams;
    assert first.rows[user.id].stripeCustomerId == Some(p.customer);
    if Truthy(StoredCustomer(rows, user.id)) {
      assert first.rows == rows;
    } else {
      assert first.calls[0] == CreateCustomer(CustomerParams(user.email, user.id));
      var cid := svc.createCustomer(CustomerParams(user.email, user.id));
      assert cid.Ok?;
      assert first.rows == SaveCustomer(rows, user.id, cid.value);
    }
    assert Truthy(StoredCustomer(first.rows, user.id));
  }

  /** The first checkout of a user without a customer id creates exactly one
      customer, for that user, before the session; it writes the id only onto
      that user's row. */
  lemma FirstCheckoutCreatesOneCustomer(req: Request, env: Env, svc: Services, rows: Rows, faults: StoreFaults)
    requires HandleCheckout(req, env, svc, rows, faults).response.status == 200
    requires req.httpMethod == "POST" && Caller(req, svc).Some?
    requires !Truthy(StoredCustomer(rows, Caller(req, svc).value.id))
    ensures
      var r := HandleCheckout(req, env, svc, rows, faults);
      var user := Caller(req, svc).value;
      && |r.calls| == 2
      && r.calls[0] == CreateCustomer(CustomerParams(user.email, user.id))
      && r.calls[1].CreateCheckoutSession?
      && (user.id in rows ==> r.rows == rows[user.id := rows[user.id].(stripeCustomerId := Some(r.calls[1].checkoutParams.customer))])
  {
    var r := HandleCheckout(req, env, svc, rows, faults);
    var user := Caller(req, svc).value;
    assert Authenticate(req, env, svc) == Admitted(user);
    if user.id in rows {
      var expected := rows[user.id := rows[user.id].(stripeCustomerId := Some(r.calls[1].checkoutParams.customer))];
      assert r.rows.Keys == expected.Keys;
      forall u | u in rows
        ensures r.rows[u] == expected[u]
      {
      }
    }
  }
}

=== FILE: common.dfy ===
/** Shared vocabulary of the entitlement core: the `entitlements` table, the
    configuration read from the environment, HTTP requests and responses of the
    serverless handlers, and the external services they call (identity
    provider, payment provider, JSON parser) as uninterpreted functions. */
module Common {

  datatype Option<+T> = None | Some(value: T) {
    /** JavaScript's `x ?? d`: only an absent value is replaced. */
    function GetOr(default: T): T {
      if Some? then value else default
    }
  }

  /** The outcome of a call that may throw; `Err` carries the error message. */
  datatype Result<+T> = Ok(value: T) | Err(message: string)

  type UserId = string

  /** One row of the `entitlements` table. Timestamps are integer milliseconds
      since the epoch; an absent or empty timestamp string is `None`. */
  datatype Entitlement = Entitlement(
    trialEndsAt: Option<int>,
    subscriptionStatus: Option<string>,
    currentPeriodEnd: Option<int>,
    stripeCustomerId: Option<string>,
    stripeSubscriptionId: Option<string>)

  /** The table, keyed by `user_id` (at most one row per user). */
  type Rows = map<UserId, Entitlement>

  /** `select … .eq("user_id", id).maybeSingle()`: the user's row or null. */
  function Lookup(rows: Rows, id: UserId): (r: Option<Entitlement>)
    ensures r.Some? <==> id in rows
    ensures r.Some? ==> r.value == rows[id]
  {
    if id in rows then Some(rows[id]) else None
  }

  /** JavaScript truthiness of an optional string: absent and "" are falsy. */
  predicate Truthy(o: Option<string>) {
    o.Some? && o.value != ""
  }

  /** The environment variables the handlers read (`Deno.env.get`). */
  datatype Env = Env(
    supabaseUrl: Option<string>,
    serviceRoleKey: Option<string>,
    stripeSecretKey: Option<string>,
    webhookSecret: Option<string>,
    priceId: Option<string>,
    siteUrl: Option<string>)

  const DefaultSiteUrl: string := "http://localhost:8080"

  /** `Deno.env.get("SITE_URL") ?? "http://localhost:8080"`. */
  function SiteUrl(env: Env): (s: string)
    ensures env.siteUrl.None? ==> s == DefaultSiteUrl
    ensures env.siteUrl.Some? ==> s == env.siteUrl.value
  {
    env.siteUrl.GetOr(DefaultSiteUrl)
  }

  /** The error `getSupabaseAdmin` throws, if any: URL first, then the key. */
  function AdminConfigError(env: Env): (e: Option<string>)
    ensures e.None? <==> Truthy(env.supabaseUrl) && Truthy(env.serviceRoleKey)
  {
    if !Truthy(env.supabaseUrl) then Some("SUPABASE_URL ausente")
    else if !Truthy(env.serviceRoleKey) then Some("SUPABASE_SERVICE_ROLE_KEY ausente")
    else None
  }

  /** The error `getStripe` throws, if any. */
  function StripeConfigError(env: Env): (e: Option<string>)
    ensures e.None? <==> Truthy(env.stripeSecretKey)
  {
    if Truthy(env.stripeSecretKey) then None else Some("STRIPE_SECRET_KEY ausente")
  }

  /** An incoming HTTP request: method, the two headers the handlers read, raw body. */
  datatype Request = Request(
    httpMethod: string,
    authorization: Option<string>,
    stripeSignature: Option<string>,
    rawBody: string)

  /** What `await req.json()` yields: a parse failure (caught and replaced by
      `{}`), the JSON literal `null`, or any other value with its optional
      string field `returnUrl`. */
  datatype JsonBody = Unparseable | JsonNull | JsonValue(returnUrl: Option<string>)

  datatype Body =
    | PlainText(text: string)
    | Received                   // {"received": true}
    | ErrorJson(error: string)   // {"error": message}
    | UrlJson(url: Option<string>)

  datatype Response = Response(status: int, body: Body)

  const MethodNotAllowed: string := "Método não permitido"

  /** The message of the error thrown when a handler reads a field off a
      `null` JSON body (the engine's text is not fixed by the source). */
  const NullBodyError: string := "TypeError: request body is null"
  const NotAuthenticated: string := "Não autenticado"

  /** The catch-all of every handler: a thrown error becomes 400 with its message. */
  function Failure(message: string): (r: Response)
    ensures r.status == 400 && r.body == ErrorJson(message)
  {
    Response(400, ErrorJson(message))
  }

  function Unauthorized(): (r: Response)
    ensures r.status == 401 && r.body == PlainText(NotAuthenticated)
  {
    Response(401, PlainText(NotAuthenticated))
  }

  /** The method guard every handler starts with: OPTIONS is answered for the
      cross-origin preflight, every other method except POST is refused, and
      POST proceeds (`None`). */
  function MethodGuard(httpMethod: string): (r: Option<Response>)
    ensures r.None? <==> httpMethod == "POST"
    ensures httpMethod == "OPTIONS" ==> r == Some(Response(200, PlainText("ok")))
    ensures httpMethod != "OPTIONS" && httpMethod != "POST" ==> r == Some(Response(405, PlainText(MethodNotAllowed)))
  {
    if httpMethod == "OPTIONS" then Some(Response(200, PlainText("ok")))
    else if httpMethod != "POST" then Some(Response(405, PlainText(MethodNotAllowed)))
    else None
  }

  /** The user record `auth.getUser` returns. */
  datatype User = User(id: UserId, email: Option<string>)

  /** How a subscription names its customer: an id, or an expanded object. */
  datatype CustomerRef = CustomerIdRef(id: string) | CustomerObject(id: string)

  /** The fields of a provider subscription object the reconciler reads;
      `currentPeriodEnd` is in seconds. */
  datatype Subscription = Subscription(
    id: string,
    customer: CustomerRef,
    status: string,
    currentPeriodEnd: Option<int>)

  datatype EventObject = SubscriptionObject(sub: Subscription) | OtherObject

  /** A verified provider event: its type and its `data.object`. */
  datatype Event = Event(eventType: string, payload: EventObject)

  datatype CustomerParams = CustomerParams(email: Option<string>, supabaseUserId: UserId)

  datatype CheckoutParams = CheckoutParams(
    mode: string,
    customer: string,
    price: string,
    quantity: int,
    successUrl: string,
    cancelUrl: string,
    allowPromotionCodes: bool,
    supabaseUserId: UserId)

  datatype PortalParams = PortalParams(customer: string, returnUrl: string)

  /** A call made to the payment provider's API, in the order it was made. */
  datatype ProviderCall =
    | CreateCustomer(customerParams: CustomerParams)
    | CreateCheckoutSession(checkoutParams: CheckoutParams)
    | CreatePortalSession(portalParams: PortalParams)

  /** The external services, as functions whose behaviour the model does not
      fix: JSON parsing of a body, token verification, signature verification
      with `constructEvent(rawBody, signature, secret)`, and the three
      provider-side creations, each of which may fail. */
  datatype Services = Services(
    parseJson: string -> JsonBody,
    getUser: string -> Option<User>,
    constructEvent: (string, string, string) -> Result<Event>,
    createCustomer: CustomerParams -> Result<string>,
    createCheckoutSession: CheckoutParams -> Result<Option<string>>,
    createPortalSession: PortalParams -> Result<string>)

  /** Whether the store's select and update queries fail, and with what message. */
  datatype StoreFaults = StoreFaults(selectError: Option<string>, updateError: Option<string>)

  /** What a handler invocation produces: its response, the table afterwards,
      and the provider calls it made. */
  datatype Reply = Reply(response: Response, rows: Rows, calls: seq<ProviderCall>)
}

=== FILE: gate.dfy ===
/** The entitlement gate in front of the protected routes: a first-match-wins
    decision over the session, the entitlement query and the current time,
    and the navigation each decision renders. */
module Gate {
  import opened Common

  /** The gate's four states; `Granted` is the source's `ok`. */
  datatype GateState = Loading | NoSession | Paywall | Granted

  /** The two subscription statuses that entitle the user. */
  predicate IsSubscribed(status: Option<string>) {
    status == Some("active") || status == Some("trialing")
  }

  /** A trial end is present and `now` has not passed it (inclusive). */
  predicate TrialValid(ent: Option<Entitlement>, now: int) {
    ent.Some? && ent.value.trialEndsAt.Some? && now <= ent.value.trialEndsAt.value
  }

  /** The status of a possibly missing row. */
  function StatusOf(ent: Option<Entitlement>): Option<string> {
    if ent.Some? then ent.value.subscriptionStatus else None
  }

  /** The entitlement a user has once both queries have settled. */
  predicate Entitled(ent: Option<Entitlement>, now: int) {
    IsSubscribed(StatusOf(ent)) || TrialValid(ent, now)
  }

  /** The gate decision. It is memoised on the two loading flags, the user
      and the row, not on the clock: `now` is the instant the decision was
      last recomputed, so a trial that runs out while the route stays mounted
      does not by itself move the gate to the paywall. */
  function Decide(authLoading: bool, user: Option<User>, entLoading: bool,
                  ent: Option<Entitlement>, now: int): (g: GateState)
    ensures authLoading ==> g == Loading
    ensures !authLoading && user.None? ==> g == NoSession
    ensures !authLoading && user.Some? && entLoading ==> g == Loading
    ensures g == Granted <==> !authLoading && user.Some? && !entLoading && Entitled(ent, now)
    ensures g == Paywall <==> !authLoading && user.Some? && !entLoading && !Entitled(ent, now)
  {
    if authLoading then Loading
    else if user.None? then NoSession
    else if entLoading then Loading
    else if IsSubscribed(StatusOf(ent)) || TrialValid(ent, now) then Granted
    else Paywall
  }

  /** Without a session the decision ignores the entitlement, its loading flag
      and the clock. */
  lemma NoSessionIgnoresEntitlement(l1: bool, e1: Option<Entitlement>, n1: int,
                                    l2: bool, e2: Option<Entitlement>, n2: int)
    ensures Decide(false, None, l1, e1, n1) == Decide(false, None, l2, e2, n2) == NoSession
  {
  }

  /** An `active` or `trialing` status grants access whatever the trial field
      holds, expired or absent. */
  lemma SubscribedIgnoresTrial(user: User, e: Entitlement, trial: Option<int>, now: int)
    requires e.subscriptionStatus == Some("active") || e.subscriptionStatus == Some("trialing")
    ensures Decide(false, Some(user), false, Some(e.(trialEndsAt := trial)), now) == Granted
  {
  }

  /** The trial boundary is inclusive: access at the very millisecond the
      trial ends, paywall one millisecond later (without a subscription). */
  lemma TrialBoundaryInclusive(user: User, e: Entitlement, now: int)
    requires e.trialEndsAt == Some(now)
    requires !IsSubscribed(e.subscriptionStatus)
    ensures Decide(false, Some(user), false, Some(e), now) == Granted
    ensures Decide(false, Some(user), false, Some(e), now + 1) == Paywall
  {
  }

  /** A missing row is "no subscription, no trial": the paywall, never an error. */
  lemma MissingRowIsPaywall(user: User, now: int)
    ensures Decide(false, Some(user), false, None, now) == Paywall
  {
  }

  /** Access that rests on the trial alone only shrinks as time passes: granted
      at `later` means granted at every earlier instant. */
  lemma GrantedEarlierIfGrantedLater(user: User, ent: Option<Entitlement>, earlier: int, later: int)
    requires earlier <= later
    requires Decide(false, Some(user), false, ent, later) == Granted
    ensures Decide(false, Some(user), false, ent, earlier) == Granted
  {
  }

  /** What the protected route renders. */
  datatype Render =
    | RenderNothing
    | Navigate(to: string, replace: bool, fromLocation: Option<string>)
    | RenderOutlet

  const LoginPath: string := "/login"
  const PaywallPath: string := "/app/paywall"

  /** The state-to-navigation mapping: loading renders nothing, no session goes
      to the login page carrying the requested location, the paywall state goes
      to the paywall page, and access renders the nested routes. */
  function RenderGate(g: GateState, location: string): (r: Render)
    ensures g == Loading <==> r == RenderNothing
    ensures g == NoSession <==> r == Navigate(LoginPath, true, Some(location))
    ensures g == Paywall <==> r == Navigate(PaywallPath, true, None)
    ensures g == Granted <==> r == RenderOutlet
  {
    match g
    case Loading => RenderNothing
    case NoSession => Navigate(LoginPath, true, Some(location))
    case Paywall => Navigate(PaywallPath, true, None)
    case Granted => RenderOutlet
  }

  /** Reading the gate state back off the rendered element. */
  function StateOfRender(r: Render): Option<GateState> {
    match r
    case RenderNothing => Some(Loading)
    case RenderOutlet => Some(Granted)
    case Navigate(to, _, _) =>
      if to == LoginPath then Some(NoSession)
      else if to == PaywallPath then Some(Paywall)
      else None
  }

  /** Every state renders distinguishably: the rendered element determines it. */
  lemma RenderDeterminesState(g: GateState, location: string)
    ensures StateOfRender(RenderGate(g, location)) == Some(g)
  {
  }

  /** The login redirect preserves the originally requested location. */
  lemma LoginRedirectKeepsLocation(user: Option<User>, l: bool, e: Option<Entitlement>, now: int, location: string)
    requires user.None?
    ensures RenderGate(Decide(false, user, l, e, now), location).fromLocation == Some(location)
  {
  }
}

=== FILE: paywall.dfy ===
/** The paywall page: the trial countdown it shows and the busy/error states
    of its "subscribe" button. */
module Paywall {
  import opened Common
  import Gate

  const MsPerHour: int := 3600000

  /** `Math.ceil(a / d)` on integers, for a positive divisor (Dafny's `/`
      rounds down when the divisor is positive). */
  function CeilDiv(a: int, d: int): (q: int)
    requires d > 0
    ensures (q - 1) * d < a <= q * d
  {
    var f := (-a) / d;
    assert -a == f * d + (-a) % d;
    -f
  }

  /** The countdown: when the trial ends, whether it has ended, and the whole
      hours left, rounded up. */
  datatype TrialInfo = TrialInfo(endsAt: int, ended: bool, hoursLeft: int)

  /** `trialInfo`: nothing without a trial end, otherwise the countdown from
      `now`, clamped at zero hours. */
  function TrialInfoOf(ent: Option<Entitlement>, now: int): (r: Option<TrialInfo>)
    ensures r.None? <==> ent.None? || ent.value.trialEndsAt.None?
    ensures r.Some? ==> r.value.endsAt == ent.value.trialEndsAt.value
    ensures r.Some? ==> (r.value.ended <==> r.value.endsAt - now <= 0)
    ensures r.Some? ==> r.value.hoursLeft >= 0
    ensures r.Some? && r.value.ended ==> r.value.hoursLeft == 0
    ensures r.Some? && !r.value.ended ==>
      var ms := r.value.endsAt - now;
      r.value.hoursLeft >= 1 && (r.value.hoursLeft - 1) * MsPerHour < ms <= r.value.hoursLeft * MsPerHour
  {
    if ent.None? || ent.value.trialEndsAt.None? then None
    else
      var end := ent.value.trialEndsAt.value;
      var ms := end - now;
      var h := CeilDiv(ms, MsPerHour);
      Some(TrialInfo(end, ms <= 0, if h > 0 then h else 0))
  }

  /** The countdown and the gate disagree at one instant only: when the trial
      ends exactly now the page says "ended" while the gate still lets the
      user in; at every other instant "ended" is exactly "no trial access". */
  lemma EndedDisagreesWithGateOnlyAtBoundary(user: User, e: Entitlement, now: int)
    requires e.trialEndsAt.Some?
    requires !Gate.IsSubscribed(e.subscriptionStatus)
    ensures var info := TrialInfoOf(Some(e), now).value;
      var access := Gate.Decide(false, Some(user), false, Some(e), now) == Gate.Granted;
      (e.trialEndsAt.value == now ==> info.ended && access)
      && (e.trialEndsAt.value != now ==> (info.ended <==> !access))
  {
  }

  /** The page's button state. */
  datatype ButtonState = ButtonState(busy: bool, error: Option<string>)

  /** What `functions.invoke("create-checkout-session")` resolves to: an error,
      or data whose `url` may be missing. */
  datatype InvokeReply = InvokeFailed(message: string) | InvokeData(url: Option<string>)

  const NoUrlError: string := "Checkout sem URL"

  /** One click: the state while the request is pending, the state once it
      settled, and the address the browser is sent to, if any. */
  datatype CheckoutRun = CheckoutRun(pending: ButtonState, settled: ButtonState, redirect: Option<string>)

  /** `startCheckout`: busy and error cleared at the start, busy released in
      every outcome, the error set on failure or on a reply without a URL, and
      a redirect to the URL otherwise. Whatever error an earlier click left is
      cleared first, so the run depends on the reply alone. */
  function StartCheckout(reply: InvokeReply): (run: CheckoutRun)
    ensures run.pending == ButtonState(true, None)
    ensures !run.settled.busy
    ensures run.redirect.Some? <==> reply.InvokeData? && Truthy(reply.url)
    ensures run.redirect.Some? ==> run.redirect == reply.url && run.settled.error.None?
    ensures reply.InvokeData? && !Truthy(reply.url) ==> run.settled.error == Some(NoUrlError)
    ensures reply.InvokeFailed? ==> run.settled.error == Some(reply.message)
  {
    var pending := ButtonState(true, None);
    match reply
    case InvokeFailed(m) => CheckoutRun(pending, ButtonState(false, Some(m)), None)
    case InvokeData(url) =>
      if Truthy(url) then CheckoutRun(pending, ButtonState(false, None), url)
      else CheckoutRun(pending, ButtonState(false, Some(NoUrlError)), None)
  }

  /** The "manage subscription" button: it goes to the portal URL when the
      reply carries one and otherwise does nothing, showing no error. */
  function ManageSubscription(reply: InvokeReply): (redirect: Option<string>)
    ensures redirect.Some? <==> reply.InvokeData? && Truthy(reply.url)
    ensures redirect.Some? ==> redirect == reply.url
  {
    if reply.InvokeData? && Truthy(reply.url) then reply.url else None
  }

  /** How the client library turns the checkout handler's response into the
      page's reply: a 2xx response yields its data, anything else an error
      whose text the library chooses. */
  function ReplyOfResponse(resp: Response, libraryError: string): (reply: InvokeReply)
    ensures 200 <= resp.status < 300 && resp.body.UrlJson? ==> reply == InvokeData(resp.body.url)
    ensures !(200 <= resp.status < 300) ==> reply == InvokeFailed(libraryError)
  {
    if 200 <= resp.status < 300 then
      if resp.body.UrlJson? then InvokeData(resp.body.url) else InvokeData(None)
    else InvokeFailed(libraryError)
  }
}

=== FILE: portal.dfy ===
/** The billing-portal handler: authenticates the caller, requires a stored
    provider customer, and opens a portal session for exactly that customer.
    It only ever reads the table. */
module Portal {
  import opened Common
  import opened Bridge

  const CustomerNotFound: string := "Cliente Stripe não encontrado"

  /** `body.returnUrl ?? siteUrl + "/app"`, where an unparseable body counts
      as `{}` (so the default applies); an empty `returnUrl` is kept. */
  function ReturnUrl(body: JsonBody, env: Env): (u: string)
    requires body != JsonNull
    ensures body.JsonValue? && body.returnUrl.Some? ==> u == body.returnUrl.value
    ensures body.Unparseable? || body.returnUrl.None? ==> u == SiteUrl(env) + "/app"
  {
    match body
    case JsonValue(Some(url)) => url
    case _ => SiteUrl(env) + "/app"
  }

  /** The handler's work once the caller is known. */
  function PortalFor(user: User, req: Request, env: Env, svc: Services, rows: Rows, faults: StoreFaults): (r: Reply)
    ensures r.rows == rows
    ensures |r.calls| <= 1
    ensures faults.selectError.None? && (user.id !in rows || !Truthy(rows[user.id].stripeCustomerId)) ==>
      r.response == Failure(CustomerNotFound) && r.calls == []
    ensures r.calls != [] ==>
      && user.id in rows && Truthy(rows[user.id].stripeCustomerId)
      && r.calls[0].CreatePortalSession?
      && r.calls[0].portalParams.customer == rows[user.id].stripeCustomerId.value
      && svc.parseJson(req.rawBody) != JsonNull
      && r.calls[0].portalParams.returnUrl == ReturnUrl(svc.parseJson(req.rawBody), env)
    ensures r.response.status == 200 ==>
      && r.calls != [] && svc.createPortalSession(r.calls[0].portalParams).Ok?
      && r.response.body == UrlJson(Some(svc.createPortalSession(r.calls[0].portalParams).value))
    ensures r.response.status == 200 || r.response.status == 400
    ensures faults.selectError.Some? ==> r == Reply(Failure(faults.selectError.value), rows, [])
    ensures (faults.selectError.None? && user.id in rows && Truthy(rows[user.id].stripeCustomerId) &&
             StripeConfigError(env).Some?) ==> r == Reply(Failure(StripeConfigError(env).value), rows, [])
    ensures (faults.selectError.None? && user.id in rows && Truthy(rows[user.id].stripeCustomerId) &&
             StripeConfigError(env).None? && svc.parseJson(req.rawBody) != JsonNull) ==>
      var params := PortalParams(rows[user.id].stripeCustomerId.value, ReturnUrl(svc.parseJson(req.rawBody), env));
      && r.calls == [CreatePortalSession(params)]
      && (r.response.status == 200 <==> svc.createPortalSession(params).Ok?)
      && (r.response.status != 200 ==> r.response == Failure(svc.createPortalSession(params).message))
  {
    if faults.selectError.Some? then Reply(Failure(faults.selectError.value), rows, [])
    else
      var ent := Lookup(rows, user.id);
      if ent.None? || !Truthy(ent.value.stripeCustomerId) then Reply(Failure(CustomerNotFound), rows, [])
      else if StripeConfigError(env).Some? then Reply(Failure(StripeConfigError(env).value), rows, [])
      else
        var body := svc.parseJson(req.rawBody);
        if body == JsonNull then Reply(Failure(NullBodyError), rows, [])
        else
          var params := PortalParams(ent.value.stripeCustomerId.value, ReturnUrl(body, env));
          match svc.createPortalSession(params)
          case Err(m) => Reply(Failure(m), rows, [CreatePortalSession(params)])
          case Ok(url) => Reply(Response(200, UrlJson(Some(url))), rows, [CreatePortalSession(params)])
  }

  /** The portal handler. */
  function HandlePortal(req: Request, env: Env, svc: Services, rows: Rows, faults: StoreFaults): (r: Reply)
    ensures r.rows == rows
    ensures req.httpMethod == "OPTIONS" ==> r == Reply(Response(200, PlainText("ok")), rows, [])
    ensures req.httpMethod != "OPTIONS" && req.httpMethod != "POST" ==>
      r == Reply(Response(405, PlainText(MethodNotAllowed)), rows, [])
    ensures req.httpMethod == "POST" && !Truthy(req.authorization) ==> r == Reply(Unauthorized(), rows, [])
    ensures r.response.status == 401 ==> r.calls == []
    ensures (req.httpMethod == "POST" && Truthy(req.authorization) && AdminConfigError(env).None? &&
             Caller(req, svc).None?) ==> r == Reply(Unauthorized(), rows, [])
    ensures req.httpMethod == "POST" && Authenticate(req, env, svc).Refused? ==>
      r == Reply(Authenticate(req, env, svc).response, rows, [])
    ensures req.httpMethod == "POST" && Authenticate(req, env, svc).Admitted? ==>
      r == PortalFor(Authenticate(req, env, svc).user, req, env, svc, rows, faults)
    ensures r.calls != [] ==>
      && req.httpMethod == "POST" && Caller(req, svc).Some?
      && var id := Caller(req, svc).value.id;
      && id in rows && Truthy(rows[id].stripeCustomerId)
      && svc.parseJson(req.rawBody) != JsonNull
      && r.calls == [CreatePortalSession(PortalParams(rows[id].stripeCustomerId.value,
                                                      ReturnUrl(svc.parseJson(req.rawBody), env)))]
  {
    match MethodGuard(req.httpMethod)
    case Some(resp) => Reply(resp, rows, [])
    case None =>
      match Authenticate(req, env, svc)
      case Refused(resp) => Reply(resp, rows, [])
      case Admitted(user) => PortalFor(user, req, env, svc, rows, faults)
  }

  /** A caller without a row, or whose row has no customer id, is refused
      with "customer not found" before any provider call. */
  lemma NoCustomerNoPortal(req: Request, env: Env, svc: Services, rows: Rows, faults: StoreFaults)
    requires req.httpMethod == "POST" && Authenticate(req, env, svc).Admitted?
    requires faults.selectError.None?
    requires var id := Authenticate(req, env, svc).user.id; id !in rows || !Truthy(rows[id].stripeCustomerId)
    ensures HandlePortal(req, env, svc, rows, faults) == Reply(Failure(CustomerNotFound), rows, [])
  {
  }
}

=== FILE: scenarios.dfy ===
/** End-to-end properties that cross components: the reconciler's writes as
    the gate then sees them, the checkout handler's answer as the paywall
    button then acts on it, and the trial scenarios of the gate and the
    countdown side by side. */
module Scenarios {
  import opened Common
  import Gate
  import Webhook
  import Checkout
  import Portal
  import Paywall

  /** Two hours before the trial ends, without a subscription: access, and a
      countdown of two hours. */
  lemma TrialTwoHoursAhead(user: User, e: Entitlement, now: int)
    requires e.trialEndsAt == Some(now + 2 * Paywall.MsPerHour) && e.subscriptionStatus.None?
    ensures Gate.Decide(false, Some(user), false, Some(e), now) == Gate.Granted
    ensures Paywall.TrialInfoOf(Some(e), now) == Some(Paywall.TrialInfo(now + 2 * Paywall.MsPerHour, false, 2))
  {
    var info := Paywall.TrialInfoOf(Some(e), now).value;
    assert info.hoursLeft == 2 by {
      var h := info.hoursLeft;
      assert (h - 1) * Paywall.MsPerHour < 2 * Paywall.MsPerHour <= h * Paywall.MsPerHour;
    }
  }

  /** An hour after the trial ended, without a subscription: the paywall, and
      a countdown that reports the end with no hours left. */
  lemma HourAfterTrialEnded(user: User, e: Entitlement, now: int)
    requires e.trialEndsAt == Some(now - Paywall.MsPerHour) && !Gate.IsSubscribed(e.subscriptionStatus)
    ensures Gate.Decide(false, Some(user), false, Some(e), now) == Gate.Paywall
    ensures Paywall.TrialInfoOf(Some(e), now) == Some(Paywall.TrialInfo(now - Paywall.MsPerHour, true, 0))
  {
  }

  /** A delivered `customer.subscription.updated` with status `active` for a
      customer the user's row already carries unlocks the application for
      that user at any time, whatever the trial says. */
  lemma ActivationEventOpensGate(req: Request, env: Env, svc: Services, rows: Rows, faults: StoreFaults,
                                 user: User, sub: Subscription, now: int)
    requires req.httpMethod == "POST"
    requires Webhook.Verified(req, env, svc) == Ok(Event(Webhook.SubscriptionUpdated, SubscriptionObject(sub)))
    requires sub.status == "active" && faults.updateError.None?
    requires user.id in rows && rows[user.id].stripeCustomerId == Some(Webhook.CustomerIdOf(sub.customer))
    ensures
      var after := Webhook.HandleWebhook(req, env, svc, rows, faults);
      && after.response == Response(200, Received)
      && after.rows[user.id].subscriptionStatus == Some("active")
      && Gate.Decide(false, Some(user), false, Lookup(after.rows, user.id), now) == Gate.Granted
  {
  }

  /** A `customer.subscription.deleted` event carrying status `canceled`
      closes the gate for that user once the trial has passed. */
  lemma CancellationEventClosesGate(req: Request, env: Env, svc: Services, rows: Rows, faults: StoreFaults,
                                    user: User, sub: Subscription, now: int)
    requires req.httpMethod == "POST"
    requires Webhook.Verified(req, env, svc) == Ok(Event(Webhook.SubscriptionDeleted, SubscriptionObject(sub)))
    requires sub.status == "canceled" && faults.updateError.None?
    requires user.id in rows && rows[user.id].stripeCustomerId == Some(Webhook.CustomerIdOf(sub.customer))
    requires rows[user.id].trialEndsAt.None? || rows[user.id].trialEndsAt.value < now
    ensures
      var after := Webhook.HandleWebhook(req, env, svc, rows, faults);
      Gate.Decide(false, Some(user), false, Lookup(after.rows, user.id), now) == Gate.Paywall
  {
  }

  /** Two successful deliveries about the same customer, in either order of
      arrival: the table ends as the second alone would leave it. */
  lemma LaterDeliveryWins(r1: Request, r2: Request, env: Env, svc: Services, rows: Rows, faults: StoreFaults,
                          s1: Subscription, s2: Subscription, t1: string, t2: string)
    requires r1.httpMethod == "POST" && r2.httpMethod == "POST"
    requires Webhook.IsSubscriptionEvent(t1) && Webhook.IsSubscriptionEvent(t2)
    requires Webhook.Verified(r1, env, svc) == Ok(Event(t1, SubscriptionObject(s1)))
    requires Webhook.Verified(r2, env, svc) == Ok(Event(t2, SubscriptionObject(s2)))
    requires faults.updateError.None?
    requires Webhook.CustomerIdOf(s1.customer) == Webhook.CustomerIdOf(s2.customer)
    ensures
      var mid := Webhook.HandleWebhook(r1, env, svc, rows, faults).rows;
      Webhook.HandleWebhook(r2, env, svc, mid, faults).rows == Webhook.HandleWebhook(r2, env, svc, rows, faults).rows
  {
    Webhook.LastWriterWins(rows, s1, s2);
  }

  /** A signature the provider library rejects leaves the table untouched and
      answers 400 with the library's message. */
  lemma RejectedSignatureWritesNothing(req: Request, env: Env, svc: Services, rows: Rows, faults: StoreFaults, message: string)
    requires req.httpMethod == "POST"
    requires Truthy(env.webhookSecret) && Truthy(env.stripeSecretKey) && Truthy(req.stripeSignature)
    requires svc.constructEvent(req.rawBody, req.stripeSignature.value, env.webhookSecret.value) == Err(message)
    ensures Webhook.HandleWebhook(req, env, svc, rows, faults) == Reply(Failure(message), rows, [])
  {
  }

  /** A successful checkout answer with a URL sends the browser there and
      leaves the button idle with no error. */
  lemma CheckoutAnswerRedirects(req: Request, env: Env, svc: Services, rows: Rows, faults: StoreFaults,
                                libraryError: string)
    requires req.httpMethod == "POST"
    requires
      var resp := Checkout.HandleCheckout(req, env, svc, rows, faults).response;
      resp.status == 200 && resp.body.UrlJson? && Truthy(resp.body.url)
    ensures
      var resp := Checkout.HandleCheckout(req, env, svc, rows, faults).response;
      var run := Paywall.StartCheckout(Paywall.ReplyOfResponse(resp, libraryError));
      run.redirect == resp.body.url && run.settled == Paywall.ButtonState(false, None)
  {
  }

  /** A refused checkout (any non-2xx status) leaves the button idle and shows
      the client library's error, with no redirect. */
  lemma CheckoutRefusalShowsError(req: Request, env: Env, svc: Services, rows: Rows, faults: StoreFaults,
                                  libraryError: string)
    requires Checkout.HandleCheckout(req, env, svc, rows, faults).response.status != 200
    ensures
      var resp := Checkout.HandleCheckout(req, env, svc, rows, faults).response;
      var run := Paywall.StartCheckout(Paywall.ReplyOfResponse(resp, libraryError));
      run.redirect.None? && run.settled == Paywall.ButtonState(false, Some(libraryError))
  {
  }

  /** The three handlers share one method guard: for any method other than
      POST they answer alike, write nothing and call no provider. */
  lemma HandlersShareMethodGuard(req: Request, env: Env, svc: Services, rows: Rows, faults: StoreFaults)
    requires req.httpMethod != "POST"
    ensures
      var w := Webhook.HandleWebhook(req, env, svc, rows, faults);
      var c := Checkout.HandleCheckout(req, env, svc, rows, faults);
      var p := Portal.HandlePortal(req, env, svc, rows, faults);
      && w == c && c == p && w.rows == rows && w.calls == []
      && (req.httpMethod == "OPTIONS" ==> w.response == Response(200, PlainText("ok")))
      && (req.httpMethod != "OPTIONS" ==> w.response == Response(405, PlainText(MethodNotAllowed)))
  {
  }

  /** The "manage subscription" button follows the portal handler: it leaves
      the page only for a portal session the provider opened with a non-empty
      URL, and stays on the page after any refusal. */
  lemma PortalButtonFollowsHandler(req: Request, env: Env, svc: Services, rows: Rows, faults: StoreFaults,
                                   libraryError: string)
    requires req.httpMethod == "POST"
    ensures
      var r := Portal.HandlePortal(req, env, svc, rows, faults);
      var redirect := Paywall.ManageSubscription(Paywall.ReplyOfResponse(r.response, libraryError));
      && (r.response.status != 200 ==> redirect.None?)
      && (redirect.Some? ==>
            && |r.calls| == 1 && r.calls[0].CreatePortalSession?
            && svc.createPortalSession(r.calls[0].portalParams) == Ok(redirect.value)
            && redirect.value != "")
  {
  }
}

=== FILE: text.dfy ===
/** The JavaScript string operations the core relies on: `replace` with a
    string pattern (first occurrence only), `includes`, and `toLowerCase`. */
module Text {
  import opened Common

  predicate IsPrefix(p: string, s: string) {
    |p| <= |s| && s[..|p|] == p
  }

  /** The first position at or after `k` where `pat` occurs in `s`. */
  function IndexFrom(s: string, pat: string, k: nat): (r: Option<nat>)
    requires k <= |s|
    ensures r.Some? ==> k <= r.value <= |s| && IsPrefix(pat, s[r.value..])
    ensures r.Some? ==> forall j :: k <= j < r.value ==> !IsPrefix(pat, s[j..])
    ensures r.None? ==> forall j :: k <= j <= |s| ==> !IsPrefix(pat, s[j..])
    decreases |s| - k
  {
    if IsPrefix(pat, s[k..]) then Some(k)
    else if k == |s| then None
    else IndexFrom(s, pat, k + 1)
  }

  /** `s.indexOf(pat)`: the first position where `pat` occurs. */
  function IndexOf(s: string, pat: string): (r: Option<nat>)
    ensures r.Some? ==> r.value <= |s| && IsPrefix(pat, s[r.value..])
    ensures r.Some? ==> forall j :: 0 <= j < r.value ==> !IsPrefix(pat, s[j..])
    ensures r.None? ==> forall j :: 0 <= j <= |s| ==> !IsPrefix(pat, s[j..])
  {
    IndexFrom(s, pat, 0)
  }

  /** `s.replace(pat, rep)` with a string pattern: only the first occurrence is
      replaced, wherever it is; without an occurrence `s` is returned as is. */
  function ReplaceFirst(s: string, pat: string, rep: string): (r: string)
    ensures IndexOf(s, pat).None? ==> r == s
    ensures IndexOf(s, pat).Some? ==>
      var i := IndexOf(s, pat).value;
      r == s[..i] + rep + s[i + |pat|..]
  {
    match IndexOf(s, pat)
    case None => s
    case Some(i) => s[..i] + rep + s[i + |pat|..]
  }

  /** The token the bridge handlers hand to `auth.getUser`:
      `authHeader.replace("Bearer ", "")`. */
  function BearerToken(header: string): string {
    ReplaceFirst(header, "Bearer ", "")
  }

  /** The well-formed header `"Bearer " + t` yields exactly `t`. */
  lemma BearerTokenOfBearerHeader(t: string)
    ensures BearerToken("Bearer " + t) == t
  {
    var h := "Bearer " + t;
    assert IsPrefix("Bearer ", h);
    assert IndexOf(h, "Bearer ") == Some(0);
    assert h[7..] == t;
  }

  /** The replacement is not anchored at the start: "Bearer " is cut out of the
      middle of a header too. */
  lemma BearerTokenNotAnchored()
    ensures BearerToken("xBearer y") == "xy"
  {
    var h := "xBearer y";
    assert !IsPrefix("Bearer ", h) by { assert h[..7][0] == 'x'; }
    assert IsPrefix("Bearer ", h[1..]) by { assert h[1..][..7] == "Bearer "; }
    assert IndexOf(h, "Bearer ") == Some(1);
  }

  /** In general, whatever precedes the first "Bearer " is kept: the header
      `p + "Bearer " + t`, with no earlier occurrence, yields `p + t`. */
  lemma BearerTokenCutsFirstOccurrence(p: string, t: string)
    requires forall j :: 0 <= j < |p| ==> !IsPrefix("Bearer ", (p + "Bearer " + t)[j..])
    ensures BearerToken(p + "Bearer " + t) == p + t
  {
    var h := p + "Bearer " + t;
    assert IsPrefix("Bearer ", h[|p|..]) by { assert h[|p|..][..7] == "Bearer "; }
    var i := IndexOf(h, "Bearer ");
    assert i == Some(|p|);
    assert h[..|p|] == p && h[|p| + 7..] == t;
  }

  /** `hay.includes(needle)`. */
  predicate Contains(hay: string, needle: string)
    decreases |hay|
  {
    IsPrefix(needle, hay) || (|hay| > 0 && Contains(hay[1..], needle))
  }

  /** `includes` agrees with the positional definition: some suffix of `hay`
      starts with `needle`. */
  lemma {:induction false} ContainsIffOccurs(hay: string, needle: string)
    ensures Contains(hay, needle) <==> exists i :: 0 <= i <= |hay| && IsPrefix(needle, hay[i..])
    decreases |hay|
  {
    if Contains(hay, needle) {
      if IsPrefix(needle, hay) {
        assert hay[0..] == hay;
      } else {
        ContainsIffOccurs(hay[1..], needle);
        var i :| 0 <= i <= |hay[1..]| && IsPrefix(needle, hay[1..][i..]);
        assert hay[1..][i..] == hay[i + 1..];
      }
    } else {
      if |hay| > 0 {
        ContainsIffOccurs(hay[1..], needle);
      }
      forall i | 0 <= i <= |hay|
        ensures !IsPrefix(needle, hay[i..])
      {
        if i > 0 {
          assert hay[1..][i - 1..] == hay[i..];
        }
      }
    }
  }

  /** Nothing non-empty occurs in the empty string. */
  lemma EmptyContainsOnlyEmpty(needle: string)
    ensures Contains("", needle) <==> needle == ""
  {
  }

  /** `toLowerCase` on one character, exact for the Latin-1 range: A–Z and
      À–Þ (except ×) map 32 code points up. */
  function LowerChar(c: char): (d: char)
    ensures 'A' <= c <= 'Z' ==> 'a' <= d <= 'z' && d as int == c as int + 32
    ensures 'À' <= c <= 'Þ' && c != '×' ==> 'à' <= d <= 'þ' && d as int == c as int + 32
    ensures c == '×' ==> d == c
    ensures !('A' <= c <= 'Z') && !('À' <= c <= 'Þ') ==> d == c
  {
    if 'A' <= c <= 'Z' then (c as int + 32) as char
    else if 'À' <= c <= 'Þ' && c != '×' then (c as int + 32) as char
    else c
  }

  function ToLower(s: string): (r: string)
    ensures |r| == |s|
    ensures forall i :: 0 <= i < |s| ==> r[i] == LowerChar(s[i])
  {
    seq(|s|, i requires 0 <= i < |s| => LowerChar(s[i]))
  }

  lemma LowerCharIdempotent(c: char)
    ensures LowerChar(LowerChar(c)) == LowerChar(c)
  {
  }

  /** Lower-casing twice is lower-casing once. */
  lemma ToLowerIdempotent(s: string)
    ensures ToLower(ToLower(s)) == ToLower(s)
  {
    forall i | 0 <= i < |s|
      ensures ToLower(ToLower(s))[i] == ToLower(s)[i]
    {
      LowerCharIdempotent(s[i]);
    }
  }
}

=== FILE: transactions.dfy ===
/** The transactions page: the filtered list it shows (by type and by a
    case-insensitive search on the description) and the validation and sign
    convention of a new transaction. */
module Transactions {
  import opened Common
  import opened Text

  /** A fetched transaction row; amounts are signed integer cents. */
  datatype Tx = Tx(
    id: string,
    amountCents: int,
    txType: string,
    category: Option<string>,
    description: Option<string>,
    date: string)

  /** The filter's label for a row: income is "receita", anything else "despesa". */
  function MappedType(t: Tx): string {
    if t.txType == "income" then "receita" else "despesa"
  }

  predicate TypeMatches(t: Tx, filterType: string) {
    filterType == "all" || MappedType(t) == filterType
  }

  /** An empty search matches everything; otherwise the lower-cased search
      must occur in the lower-cased description, a missing one counting as "". */
  predicate SearchMatches(t: Tx, search: string) {
    search == "" || Contains(ToLower(t.description.GetOr("")), ToLower(search))
  }

  predicate Keep(t: Tx, filterType: string, search: string) {
    TypeMatches(t, filterType) && SearchMatches(t, search)
  }

  /** `filtered`: the rows the page lists, in the fetched order. */
  function Filter(txs: seq<Tx>, filterType: string, search: string): (r: seq<Tx>)
    ensures |r| <= |txs|
    ensures forall t :: t in r ==> t in txs && Keep(t, filterType, search)
    ensures forall t :: t in txs && Keep(t, filterType, search) ==> t in r
  {
    if txs == [] then []
    else
      var rest := Filter(txs[1..], filterType, search);
      assert forall t :: t in txs[1..] ==> t in txs;
      assert forall t :: t in txs ==> t == txs[0] || t in txs[1..];
      if Keep(txs[0], filterType, search) then [txs[0]] + rest else rest
  }

  /** `a` is `b` with some elements dropped, order kept. */
  predicate IsSubsequence(a: seq<Tx>, b: seq<Tx>)
    decreases |b|
  {
    if a == [] then true
    else if b == [] then false
    else (a[0] == b[0] && IsSubsequence(a[1..], b[1..])) || IsSubsequence(a, b[1..])
  }

  /** The filtered list is an order-preserving subsequence of the fetched one. */
  lemma {:induction false} FilterIsSubsequence(txs: seq<Tx>, filterType: string, search: string)
    ensures IsSubsequence(Filter(txs, filterType, search), txs)
  {
    if txs != [] {
      FilterIsSubsequence(txs[1..], filterType, search);
      var r := Filter(txs, filterType, search);
      if Keep(txs[0], filterType, search) {
        assert r[0] == txs[0] && r[1..] == Filter(txs[1..], filterType, search);
      }
    }
  }

  /** Filtering the filtered list with the same settings changes nothing. */
  lemma {:induction false} FilterIdempotent(txs: seq<Tx>, filterType: string, search: string)
    ensures Filter(Filter(txs, filterType, search), filterType, search) == Filter(txs, filterType, search)
  {
    if txs != [] {
      FilterIdempotent(txs[1..], filterType, search);
      var r := Filter(txs, filterType, search);
      if Keep(txs[0], filterType, search) {
        assert r[0] == txs[0] && r[1..] == Filter(txs[1..], filterType, search);
      }
    }
  }

  /** With "all" and no search the list is shown whole. */
  lemma {:induction false} NoFilterKeepsAll(txs: seq<Tx>)
    ensures Filter(txs, "all", "") == txs
  {
    if txs != [] {
      NoFilterKeepsAll(txs[1..]);
      assert txs == [txs[0]] + txs[1..];
    }
  }

  /** "receita" shows exactly the income rows, "despesa" exactly the others. */
  lemma TypeFilterSelects(txs: seq<Tx>, search: string)
    ensures forall t :: t in Filter(txs, "receita", search) ==> t.txType == "income"
    ensures forall t :: t in Filter(txs, "despesa", search) ==> t.txType != "income"
    ensures forall t :: t in txs && t.txType == "income" && SearchMatches(t, search) ==> t in Filter(txs, "receita", search)
    ensures forall t :: t in txs && t.txType != "income" && SearchMatches(t, search) ==> t in Filter(txs, "despesa", search)
  {
  }

  /** Any other filter value hides every row. */
  lemma UnknownFilterHidesAll(txs: seq<Tx>, filterType: string, search: string)
    requires filterType != "all" && filterType != "receita" && filterType != "despesa"
    ensures Filter(txs, filterType, search) == []
  {
    var r := Filter(txs, filterType, search);
    assert forall i :: 0 <= i < |r| ==> r[i] in r;
  }

  /** A non-empty search drops every row without a description. */
  lemma SearchDropsMissingDescription(t: Tx, filterType: string, search: string)
    requires search != "" && t.description.None?
    ensures !Keep(t, filterType, search)
  {
    EmptyContainsOnlyEmpty(ToLower(search));
  }

  /** The search ignores the case of the search text. */
  lemma SearchIgnoresCase(t: Tx, search: string)
    ensures SearchMatches(t, search) <==> SearchMatches(t, ToLower(search))
  {
    ToLowerIdempotent(search);
  }

  /** The amount field once parsed: not a finite number, or a whole number of cents. */
  datatype Amount = NotFinite | Cents(cents: int)

  /** The new-transaction form; an unselected type is "". */
  datatype TxForm = TxForm(description: string, amount: Amount, txType: string, category: string, date: string)

  /** The row `createTx` inserts. */
  datatype NewTx = NewTx(
    userId: UserId,
    amountCents: int,
    txType: string,
    category: Option<string>,
    description: Option<string>,
    date: string)

  const NoSession: string := "Sem sessão"
  const InvalidAmount: string := "Valor inválido"
  const NoType: string := "Selecione o tipo"
  const NoDate: string := "Selecione a data"

  /** `form.x || null`. */
  function NullIfEmpty(s: string): (r: Option<string>)
    ensures r.None? <==> s == ""
    ensures r.Some? ==> r.value == s
  {
    if s == "" then None else Some(s)
  }

  /** The first validation failure, checked in the source's order. */
  function ValidationError(user: Option<User>, form: TxForm): Option<string> {
    if user.None? || user.value.id == "" then Some(NoSession)
    else if form.amount.NotFinite? || form.amount.cents <= 0 then Some(InvalidAmount)
    else if form.txType == "" then Some(NoType)
    else if form.date == "" then Some(NoDate)
    else None
  }

  /** `createTx`: validation, then the row with its signed amount. */
  function CreateTx(user: Option<User>, form: TxForm, insertError: Option<string>): (r: Result<NewTx>)
    ensures user.None? || user.value.id == "" ==> r == Err(NoSession)
    ensures user.Some? && user.value.id != "" && (form.amount.NotFinite? || form.amount.cents <= 0) ==>
      r == Err(InvalidAmount)
    ensures user.Some? && user.value.id != "" && form.amount.Cents? && form.amount.cents > 0 && form.txType == "" ==>
      r == Err(NoType)
    ensures (user.Some? && user.value.id != "" && form.amount.Cents? && form.amount.cents > 0 &&
             form.txType != "" && form.date == "") ==> r == Err(NoDate)
    ensures r.Ok? <==>
      && user.Some? && user.value.id != "" && form.amount.Cents? && form.amount.cents > 0
      && form.txType != "" && form.date != "" && insertError.None?
    ensures ValidationError(user, form).None? && insertError.Some? ==> r == Err(insertError.value)
    ensures r.Ok? ==>
      && r.value.userId == user.value.id
      && r.value.txType == form.txType && r.value.date == form.date
      && (form.txType == "expense" ==> r.value.amountCents == -form.amount.cents < 0)
      && (form.txType != "expense" ==> r.value.amountCents == form.amount.cents > 0)
      && r.value.category == NullIfEmpty(form.category)
      && r.value.description == NullIfEmpty(form.description)
  {
    match ValidationError(user, form)
    case Some(m) => Err(m)
    case None =>
      if insertError.Some? then Err(insertError.value)
      else
        var cents := form.amount.cents;
        var signed := if form.txType == "expense" then -cents else cents;
        Ok(NewTx(user.value.id, signed, form.txType, NullIfEmpty(form.category),
                 NullIfEmpty(form.description), form.date))
  }

  /** A saved expense shows under "despesa" and a saved income under
      "receita", and the list's sign (`amount_cents > 0`) tells them apart. */
  lemma SavedRowFiltersByItsType(user: Option<User>, form: TxForm, id: string)
    requires CreateTx(user, form, None).Ok?
    requires form.txType == "income" || form.txType == "expense"
    ensures
      var row := CreateTx(user, form, None).value;
      var t := Tx(id, row.amountCents, row.txType, row.category, row.description, row.date);
      && (form.txType == "income" ==> Keep(t, "receita", "") && t.amountCents > 0)
      && (form.txType == "expense" ==> Keep(t, "despesa", "") && t.amountCents < 0)
  {
  }

  /** A saved description reads back through the list's `?? ""` as exactly
      what was typed, so searching for it, in any case, finds the row; a row
      saved without one is found by no non-empty search. */
  lemma SavedDescriptionIsFound(user: Option<User>, form: TxForm, id: string, search: string)
    requires CreateTx(user, form, None).Ok?
    ensures
      var row := CreateTx(user, form, None).value;
      var t := Tx(id, row.amountCents, row.txType, row.category, row.description, row.date);
      && t.description.GetOr("") == form.description
      && (ToLower(search) == ToLower(form.description) ==> SearchMatches(t, search))
      && (form.description == "" && search != "" ==> !SearchMatches(t, search))
  {
    var row := CreateTx(user, form, None).value;
    var d := ToLower(form.description);
    assert IsPrefix(d, d) by { assert d[..|d|] == d; }
    EmptyContainsOnlyEmpty(ToLower(search));
  }
}

=== FILE: webhook.dfy ===
/** The webhook reconciler: verifies a signed provider event and mirrors a
    subscription's status, period end and identifiers onto every entitlement
    row that carries the subscription's customer id. */
module Webhook {
  import opened Common

  const SubscriptionCreated: string := "customer.subscription.created"
  const SubscriptionUpdated: string := "customer.subscription.updated"
  const SubscriptionDeleted: string := "customer.subscription.deleted"

  /** The event types the reconciler acts on; all others are acknowledged. */
  predicate IsSubscriptionEvent(eventType: string) {
    eventType == SubscriptionCreated || eventType == SubscriptionUpdated || eventType == SubscriptionDeleted
  }

  /** The message of the error thrown when a subscription event's object has no
      `customer` to read (the engine's text is not fixed by the source). */
  const MalformedSubscription: string := "TypeError: subscription without customer"

  /** `typeof sub.customer === "string" ? sub.customer : sub.customer.id`. */
  function CustomerIdOf(c: CustomerRef): string {
    match c
    case CustomerIdRef(id) => id
    case CustomerObject(id) => id
  }

  /** The period end in milliseconds; a missing or zero field becomes null. */
  function PeriodEndMs(seconds: Option<int>): (r: Option<int>)
    ensures r.None? <==> seconds.None? || seconds.value == 0
    ensures r.Some? ==> r.value == seconds.value * 1000
  {
    if seconds.Some? && seconds.value != 0 then Some(seconds.value * 1000) else None
  }

  /** The four fields the update writes onto a matching row. */
  function Stamp(e: Entitlement, sub: Subscription): Entitlement {
    e.(subscriptionStatus := Some(sub.status),
       currentPeriodEnd := PeriodEndMs(sub.currentPeriodEnd),
       stripeCustomerId := Some(CustomerIdOf(sub.customer)),
       stripeSubscriptionId := Some(sub.id))
  }

  /** Whether row `e` is selected by `.eq("stripe_customer_id", customerId)`. */
  predicate Matches(e: Entitlement, customerId: string) {
    e.stripeCustomerId == Some(customerId)
  }

  /** `upsertFromSubscription`: an update filtered by customer id. It never
      inserts a row; matching rows get the status verbatim, the period end, and
      both ids; every other row, and every other field, stays as it was. */
  function ApplySubscription(rows: Rows, sub: Subscription): (r: Rows)
    ensures r.Keys == rows.Keys
    ensures forall u :: u in rows && !Matches(rows[u], CustomerIdOf(sub.customer)) ==> r[u] == rows[u]
    ensures forall u :: u in rows && Matches(rows[u], CustomerIdOf(sub.customer)) ==>
      && r[u].subscriptionStatus == Some(sub.status)
      && r[u].currentPeriodEnd == PeriodEndMs(sub.currentPeriodEnd)
      && r[u].stripeCustomerId == Some(CustomerIdOf(sub.customer))
      && r[u].stripeSubscriptionId == Some(sub.id)
      && r[u].trialEndsAt == rows[u].trialEndsAt
  {
    map u | u in rows :: if Matches(rows[u], CustomerIdOf(sub.customer)) then Stamp(rows[u], sub) else rows[u]
  }

  /** Everything the handler does before the dispatch, each step able to
      throw: the signing secret, the provider client, the signature header, the
      signature check and event construction, then the store client. */
  function Verified(req: Request, env: Env, svc: Services): (r: Result<Event>)
    ensures !Truthy(env.webhookSecret) ==> r == Err("STRIPE_WEBHOOK_SECRET ausente")
    ensures Truthy(env.webhookSecret) && !Truthy(env.stripeSecretKey) ==> r == Err("STRIPE_SECRET_KEY ausente")
    ensures Truthy(env.webhookSecret) && Truthy(env.stripeSecretKey) && !Truthy(req.stripeSignature) ==>
      r == Err("stripe-signature ausente")
    ensures Truthy(env.webhookSecret) && Truthy(env.stripeSecretKey) && Truthy(req.stripeSignature) ==>
      var event := svc.constructEvent(req.rawBody, req.stripeSignature.value, env.webhookSecret.value);
      && (event.Err? ==> r == event)
      && (event.Ok? && AdminConfigError(env).Some? ==> r == Err(AdminConfigError(env).value))
      && (AdminConfigError(env).None? ==> r == event)
    ensures r.Ok? ==>
      && Truthy(env.webhookSecret) && Truthy(env.stripeSecretKey) && Truthy(req.stripeSignature)
      && AdminConfigError(env).None?
      && svc.constructEvent(req.rawBody, req.stripeSignature.value, env.webhookSecret.value) == r
  {
    if !Truthy(env.webhookSecret) then Err("STRIPE_WEBHOOK_SECRET ausente")
    else if StripeConfigError(env).Some? then Err(StripeConfigError(env).value)
    else if !Truthy(req.stripeSignature) then Err("stripe-signature ausente")
    else
      var event := svc.constructEvent(req.rawBody, req.stripeSignature.value, env.webhookSecret.value);
      if event.Err? then event
      else if AdminConfigError(env).Some? then Err(AdminConfigError(env).value)
      else event
  }

  /** The dispatch on a verified event: subscription events write (or fail as a
      whole), every other event leaves the table as it is. */
  function Dispatch(rows: Rows, event: Event, faults: StoreFaults): (r: Result<Rows>)
    ensures !IsSubscriptionEvent(event.eventType) ==> r == Ok(rows)
    ensures r.Ok? && IsSubscriptionEvent(event.eventType) ==>
      event.payload.SubscriptionObject? && r.value == ApplySubscription(rows, event.payload.sub)
    ensures IsSubscriptionEvent(event.eventType) && faults.updateError.Some? ==> r.Err?
    ensures IsSubscriptionEvent(event.eventType) && event.payload.SubscriptionObject? && faults.updateError.Some? ==>
      r == Err(faults.updateError.value)
    ensures IsSubscriptionEvent(event.eventType) && event.payload.SubscriptionObject? && faults.updateError.None? ==>
      r == Ok(ApplySubscription(rows, event.payload.sub))
    ensures IsSubscriptionEvent(event.eventType) && event.payload.OtherObject? ==> r.Err?
  {
    if !IsSubscriptionEvent(event.eventType) then Ok(rows)
    else match event.payload
      case OtherObject => Err(MalformedSubscription)
      case SubscriptionObject(sub) =>
        if faults.updateError.Some? then Err(faults.updateError.value)
        else Ok(ApplySubscription(rows, sub))
  }

  /** The webhook handler: method guard, then verification and dispatch, with
      any thrown error answered by 400 and no write. */
  function HandleWebhook(req: Request, env: Env, svc: Services, rows: Rows, faults: StoreFaults): (r: Reply)
    ensures r.calls == []
    ensures r.rows.Keys == rows.Keys
    ensures req.httpMethod == "OPTIONS" ==> r.response == Response(200, PlainText("ok")) && r.rows == rows
    ensures req.httpMethod != "OPTIONS" && req.httpMethod != "POST" ==>
      r.response == Response(405, PlainText(MethodNotAllowed)) && r.rows == rows
    ensures req.httpMethod == "POST" && Verified(req, env, svc).Err? ==>
      r.response == Failure(Verified(req, env, svc).message) && r.rows == rows
    ensures r.response.status != 200 ==> r.rows == rows
    ensures (req.httpMethod == "POST" && Verified(req, env, svc).Ok? &&
             Dispatch(rows, Verified(req, env, svc).value, faults).Err?) ==>
      r == Reply(Failure(Dispatch(rows, Verified(req, env, svc).value, faults).message), rows, [])
    ensures r.response.body == Received <==>
      req.httpMethod == "POST" && Verified(req, env, svc).Ok? &&
      Dispatch(rows, Verified(req, env, svc).value, faults).Ok?
    ensures r.response.body == Received ==>
      r.response.status == 200 && r.rows == Dispatch(rows, Verified(req, env, svc).value, faults).value
  {
    match MethodGuard(req.httpMethod)
    case Some(resp) => Reply(resp, rows, [])
    case None =>
      match Verified(req, env, svc)
      case Err(m) => Reply(Failure(m), rows, [])
      case Ok(event) =>
        match Dispatch(rows, event, faults)
        case Err(m) => Reply(Failure(m), rows, [])
        case Ok(rows') => Reply(Response(200, Received), rows', [])
  }

  /** Applying the same subscription twice is applying it once. */
  lemma ApplyIdempotent(rows: Rows, sub: Subscription)
    ensures ApplySubscription(ApplySubscription(rows, sub), sub) == ApplySubscription(rows, sub)
  {
    var once := ApplySubscription(rows, sub);
    var twice := ApplySubscription(once, sub);
    forall u | u in rows
      ensures twice[u] == once[u]
    {
    }
  }

  /** Last writer wins: of two subscription snapshots for the same customer,
      the later one's fields are all that remain, with no ordering guard. */
  lemma LastWriterWins(rows: Rows, first: Subscription, second: Subscription)
    requires CustomerIdOf(first.customer) == CustomerIdOf(second.customer)
    ensures ApplySubscription(ApplySubscription(rows, first), second) == ApplySubscription(rows, second)
  {
    var mid := ApplySubscription(rows, first);
    var lhs := ApplySubscription(mid, second);
    var rhs := ApplySubscription(rows, second);
    forall u | u in rows
      ensures lhs[u] == rhs[u]
    {
    }
  }

  /** Snapshots of different customers touch disjoint rows, so their order
      does not matter. */
  lemma DifferentCustomersCommute(rows: Rows, a: Subscription, b: Subscription)
    requires CustomerIdOf(a.customer) != CustomerIdOf(b.customer)
    ensures ApplySubscription(ApplySubscription(rows, a), b) == ApplySubscription(ApplySubscription(rows, b), a)
  {
    var ab := ApplySubscription(ApplySubscription(rows, a), b);
    var ba := ApplySubscription(ApplySubscription(rows, b), a);
    forall u | u in rows
      ensures ab[u] == ba[u]
    {
    }
  }

  /** A customer id no row carries changes nothing. */
  lemma UnknownCustomerChangesNothing(rows: Rows, sub: Subscription)
    requires forall u :: u in rows ==> !Matches(rows[u], CustomerIdOf(sub.customer))
    ensures ApplySubscription(rows, sub) == rows
  {
  }

  /** At-least-once delivery is safe: handling the same request a second time
      leaves the table as the first delivery left it. */
  lemma ReplayIsIdempotent(req: Request, env: Env, svc: Services, rows: Rows, faults: StoreFaults)
    ensures
      var once := HandleWebhook(req, env, svc, rows, faults).rows;
      HandleWebhook(req, env, svc, once, faults).rows == once
  {
    var once := HandleWebhook(req, env, svc, rows, faults);
    if once.response.body == Received {
      var event := Verified(req, env, svc).value;
      if IsSubscriptionEvent(event.eventType) {
        ApplyIdempotent(rows, event.payload.sub);
      }
    }
  }
}
